=== FILE: README.md ===
# job_agent in Dafny

`job_agent.py` is a small job-search agent. It collects Werkstudent postings from two
places:

- the ArbeitNow job board, which it filters by role keywords, the remote flag and the
  word "Werkstudent";
- the SerpApi Google Jobs aggregator, which it queries with one combined
  `Werkstudent ("k1" OR "k2" OR ...)` query and keeps unfiltered.

It then concatenates the two lists, board first, and writes a dated text report. The
report holds a header, a total, a per-source count map, and one six-line block per job.
The model returns the report as a sequence of entries. When no field contains a line
break, every entry is one line of the file except the `Sources:` entry, which spans
several lines (see "## Left out").

This project models that logic:

- `Jobs` holds the values both sources produce. A JSON field is `Missing` or
  `Present(Null | Str(s))`. An HTTP exchange is `Failed` or `Reply(status, items)`.
- `Strings` holds the text operations the code relies on: ASCII lower-casing, the
  `in` substring test, `join` and decimal rendering. It also holds a one-character
  `Split`, which the code never calls. `Split` only serves the proofs, to read the built query
  back into its keywords (`SerpApi.QueryShape`).
- `ArbeitNow` models `fetch_arbeitnow_jobs`:
  - the keep predicate;
  - the postings whose reading raises, which discard the whole list;
  - the loop, as a method proved against the function `ArbeitNowJobs`.
- `SerpApi` models `fetch_serpapi_jobs`:
  - the key check;
  - the query;
  - the `via` and link choice;
  - the loop, as a method proved against `SerpApiJobs`. A result that raises here
    stops the loop, but the records already appended are still returned.
- `Report` models `save_results`:
  - the `DDMMYY_Result.txt` path;
  - the count loop, proved against the multiset of source labels;
  - the report's lines.
- `Agent` models `main`: the merge and the whole run.

The clock, the environment variable and both HTTP answers are parameters. The report
is returned as a sequence of entries, and the path as a string.

Behaviour worth knowing:

- Keywords match as plain substrings of the lower-cased title, not on word
  boundaries. "AWS" matches inside "Paws" (`ArbeitNow.KeywordInsideWord`).
- The only filters are the keyword/remote test and the "Werkstudent" test on board
  postings. SerpApi results are not filtered at all.
- The merged list is neither sorted nor deduplicated.
- Each job block has six lines, ending with a 50-dash rule.

## Model

| member | source | states |
|---|---|---|
| Strings.ContainsIff | job_agent.py:36 | The `in` test holds exactly when the needle occurs at some index of the text. |
| ArbeitNow.KeepIff | job_agent.py:34-41 | A posting is kept iff both hold: "Werkstudent" occurs case-sensitively in its title, and the posting is remote or some lower-cased keyword occurs in the lower-cased title. Both directions are stated. |
| ArbeitNow.KeptIndicesExact | job_agent.py:33-48 | The kept positions are in range and strictly increasing, each is a kept posting, and every kept posting is among them. The output is an order-preserving selection of exactly the kept postings. |
| ArbeitNow.KeptRecordsAlign | job_agent.py:33-48 | There is one record per kept posting, never more than there are postings, and the j-th record is made from the j-th kept posting. |
| ArbeitNow.KeptRecordsCopyFields | job_agent.py:42-48 | The j-th record copies title, company_name, location and url of the j-th kept posting and has source "ArbeitNow". There are as many records as kept postings. |
| ArbeitNow.ArbeitNowLabelled | job_agent.py:47 | Every record the board yields has source "ArbeitNow". |
| ArbeitNow.FetchArbeitNowJobs | job_agent.py:22-52 | The loop returns `ArbeitNowJobs`. That is [] on a failed or non-200 exchange or when any posting raises, and otherwise the kept records. |
| ArbeitNow.KeywordInsideWord | job_agent.py:36 | Keyword matching is substring matching: "Paws Werkstudent" matches "AWS". |
| ArbeitNow.RoleMarkerCaseSensitive | job_agent.py:41 | A remote posting titled "werkstudent Terraform" is dropped, because the marker is case-sensitive. |
| SerpApi.SerpApiJobs | job_agent.py:60-105 | Without a key, or on a failed or non-200 exchange, the result is []. Otherwise there is one normalised record per result, in order, up to the first result that raises. No result before the cut raises, and the result right after it does. |
| SerpApi.OneRecordPerResult | job_agent.py:86-101 | With well-formed results there is exactly one record per result. Its source is `via`, or "Google Jobs" when absent. Its link is the first related link's `link`, else `share_link`. |
| SerpApi.InterleaveShape | job_agent.py:69 | Keywords sit at the even positions in order, with one separator between each two. |
| SerpApi.PiecesShape | job_agent.py:69-70 | Text cut into the query's pieces has keyword i at piece 2i+1, " OR " between keywords, and two quote characters per keyword. |
| SerpApi.QueryListsKeywords | job_agent.py:69-70 | Cut at its quotes, the query is `Werkstudent (`, then the keywords interleaved with " OR ", then `)`. |
| SerpApi.QueryShape | job_agent.py:69-70 | The query has 2n+1 pieces with keyword i at piece 2i+1, in keyword order, and " OR " between each two: n-1 separators. It holds exactly 2n double quotes. |
| SerpApi.BaseQuery | job_agent.py:69-70 | The query sent is the seven configured keywords, quoted, in order, joined by " OR ", inside `Werkstudent (...)`. |
| SerpApi.FetchSerpApiJobs | job_agent.py:54-105 | Without a key: no request and []. With a key: the request is the combined query, and the loop returns `SerpApiJobs`. |
| Strings.DecimalRoundTrip | job_agent.py:125 | The rendered total consists of digits and reads back as the number. |
| Report.FileNameNamesTheDay | job_agent.py:112-115 | The file name is six digits followed by `_Result.txt`. Characters 0-1 read back as the day, 2-3 as the month and 4-5 as the year modulo 100 (`DDMMYY`). Two days share a file exactly when they agree on day, month and two-digit year. |
| Report.CountMapTotals | job_agent.py:118-121 | The count map's keys are exactly the sources present, every count is at least 1, and the counts sum to the number of jobs. |
| Report.CountSources | job_agent.py:117-121 | The dictionary-update loop yields the count map, that is, the multiplicities of the source labels, whose sum is the number of jobs. |
| Report.CountsAdd | job_agent.py:118-121 | The counts of a concatenation are the sum, per source, of the parts' counts. |
| Report.UniformCount | job_agent.py:118-121 | Jobs that all carry one label are all counted under it. |
| Report.JobBlocksLayout | job_agent.py:132-138 | Job i's six-line block is entries 6i to 6i+5 of the blocks. |
| Report.ReportHeader | job_agent.py:124-130 | There are 5 + (1 or 6·jobs) entries. The entries are the date line, then the total (which reads back as the job count), then the count map, then the rule, then a blank entry. The no-jobs line is present when the list is empty. |
| Report.NoJobsLineIff | job_agent.py:129-133 | Entry 5 is the no-jobs line exactly when the job list is empty. |
| Report.ReportBlocks | job_agent.py:132-138 | Job i's block starts at entry 5+6i, in job order. |
| Report.SaveResults | job_agent.py:107-138 | Returns the `job_results/DDMMYY_Result.txt` path of the first clock reading and the report entries dated by the second. |
| Agent.NoKeyBoardOnly | job_agent.py:143-150 | Without an API key the report lists only the board's jobs. |
| Agent.MergedCounts | job_agent.py:150 | The merged counts are the two sources' counts added per source. The "ArbeitNow" count covers all of the board's jobs, and the counts sum to the merged length. |
| Agent.ReportTotals | job_agent.py:125-130 | The total line counts the jobs of both sources. The no-jobs line appears exactly when neither source yielded a job. |
| Agent.RunAgent | job_agent.py:142-153 | `main` sends the combined query only when a key exists. It writes the board's jobs followed by the search's jobs to the dated path. |

## Left out

- HTTP requests, `response.json()` and the SerpApi `params` other than the query are not modelled. Each exchange is an input `Response`, either `Failed` or a status with the decoded list.
- `os.environ`, `os.makedirs`, `open`/`write` and every `print` are not modelled. The key is a parameter, the report is returned as entries, and the path is returned as a string.
- Strings.Lower: lower-cases ASCII letters only. Python's `lower()` is Unicode-aware, but no non-ASCII character lowers into a completion of one of the ASCII keywords, so the keep decision is the same.
- Report.IsoDate: `%Y` is rendered as four zero-padded digits. The platform's strftime may print years below 1000 differently.
- Report.SaveResults: the `Sources:` entry is the count map itself, not the text `json.dumps(..., indent=2)` prints. That text is one line (`Sources: {}`) only for an empty map. With k distinct sources it spans k+2 lines of the file. So the entry positions the Report lemmas state count entries, not file lines. In the file, job i's block starts at line 5+6i+k+1 when k > 0 and no field of an earlier job contains a line break. Field values are written raw, so a title holding a line break spans several file lines and shifts every later block. `json.dumps` escapes line breaks inside the keys, so the `Sources:` text stays k+2 lines. The model also has no key order for the map.
- Report.Render: field values are `null` or strings. Numbers, booleans, lists and objects in a posting's fields are outside the model's input domain. A list or object as `source` would make the count update raise TypeError before the file is opened, and `main` does not catch it. `True` and `1` would share one dictionary key.
- ArbeitNow.Posting: `remote` is reduced to its truth value. A posting that is not an object is modelled as one without a title, which raises the same way.
- SerpApi.SerpResult: a `related_links` value is reduced to falsy, an indexable list whose first entry is an object, or anything else (which raises).
- Report.ReportPath: the path is joined with "/", the POSIX separator. `os.path.join` uses the platform's separator.
- The unused `LOCATIONS` constant (job_agent.py:19) is not modelled.
- The clock is read twice, once for the file name and once for the header. These are the two `Date` parameters of `Report.SaveResults` and `Agent.RunAgent`, and they may differ.

=== FILE: agent.dfy ===
/** `main`: fetch from both sources, put the board's jobs first, and save the report. */
module Agent {
  import opened Jobs
  import opened Strings
  import ArbeitNow
  import SerpApi
  import opened Report

  /** `arbeitnow_jobs + serpapi_jobs`. */
  function Merge(arbeitnow: seq<JobRecord>, serpapi: seq<JobRecord>): seq<JobRecord> {
    arbeitnow + serpapi
  }

  /** The jobs `main` hands to `save_results`, given what each source answered and
      the `SERPAPI_KEY` environment variable. */
  function AgentJobs(board: Response<ArbeitNow.Posting>, apiKey: Option<string>, search: Response<SerpApi.SerpResult>): seq<JobRecord> {
    Merge(ArbeitNow.ArbeitNowJobs(board), SerpApi.SerpApiJobs(apiKey, search))
  }

  /** Without an API key the report lists the board's jobs only. */
  lemma NoKeyBoardOnly(board: Response<ArbeitNow.Posting>, apiKey: Option<string>, search: Response<SerpApi.SerpResult>)
    requires !SerpApi.HasApiKey(apiKey)
    ensures AgentJobs(board, apiKey, search) == ArbeitNow.ArbeitNowJobs(board)
  {
    assert SerpApi.SerpApiJobs(apiKey, search) == [];
    assert ArbeitNow.ArbeitNowJobs(board) + [] == ArbeitNow.ArbeitNowJobs(board);
  }

  /** The counts of the merged list are the two sources' counts added together, the
      board's label counts at least all of the board's jobs, and the counts add up to
      the number of merged jobs. */
  lemma MergedCounts(board: Response<ArbeitNow.Posting>, apiKey: Option<string>, search: Response<SerpApi.SerpResult>)
    ensures forall src :: CountOf(CountMap(AgentJobs(board, apiKey, search)), src) ==
              CountOf(CountMap(ArbeitNow.ArbeitNowJobs(board)), src) + CountOf(CountMap(SerpApi.SerpApiJobs(apiKey, search)), src)
    ensures CountOf(CountMap(AgentJobs(board, apiKey, search)), Str(ArbeitNow.SOURCE_LABEL)) >= |ArbeitNow.ArbeitNowJobs(board)|
    ensures SumCounts(CountMap(AgentJobs(board, apiKey, search))) == |ArbeitNow.ArbeitNowJobs(board)| + |SerpApi.SerpApiJobs(apiKey, search)|
  {
    var a, b := ArbeitNow.ArbeitNowJobs(board), SerpApi.SerpApiJobs(apiKey, search);
    CountsAdd(a, b);
    ArbeitNow.ArbeitNowLabelled(board);
    UniformCount(a, Str(ArbeitNow.SOURCE_LABEL));
    CountMapTotals(a + b);
  }

  /** The report's total line counts the jobs of both sources, and the no-jobs line
      appears exactly when neither source yielded a job. */
  lemma ReportTotals(board: Response<ArbeitNow.Posting>, apiKey: Option<string>, search: Response<SerpApi.SerpResult>, d: Date)
    requires ValidDate(d)
    ensures ReportLines(AgentJobs(board, apiKey, search), d)[1] ==
              Plain(TOTAL_PREFIX + Decimal(|ArbeitNow.ArbeitNowJobs(board)| + |SerpApi.SerpApiJobs(apiKey, search)|))
    ensures ReportLines(AgentJobs(board, apiKey, search), d)[5] == Plain(NO_JOBS_LINE) <==>
              ArbeitNow.ArbeitNowJobs(board) == [] && SerpApi.SerpApiJobs(apiKey, search) == []
  {
    var a, b := ArbeitNow.ArbeitNowJobs(board), SerpApi.SerpApiJobs(apiKey, search);
    var jobs := AgentJobs(board, apiKey, search);
    assert jobs == a + b && |jobs| == |a| + |b|;
    ReportHeader(jobs, d);
    NoJobsLineIff(jobs, d);
  }

  /** `main`: the request sent to the search service (none without a key), the report's
      path and the lines written to it. */
  method RunAgent(board: Response<ArbeitNow.Posting>, apiKey: Option<string>, search: Response<SerpApi.SerpResult>, fileDay: Date, headerDay: Date)
    returns (searchRequest: Option<string>, path: string, lines: seq<Line>)
    requires ValidDate(fileDay) && ValidDate(headerDay)
    ensures searchRequest == (if SerpApi.HasApiKey(apiKey) then Some(SerpApi.BuildQuery(BASE_KEYWORDS)) else None)
    ensures path == ReportPath(fileDay)
    ensures lines == ReportLines(AgentJobs(board, apiKey, search), headerDay)
  {
    var arbeitnowJobs := ArbeitNow.FetchArbeitNowJobs(board);
    var serpapiJobs;
    searchRequest, serpapiJobs := SerpApi.FetchSerpApiJobs(apiKey, search);
    var allJobs := arbeitnowJobs + serpapiJobs;
    path, lines := SaveResults(allJobs, fileDay, headerDay);
  }
}

=== FILE: arbeitnow.dfy ===
/** The free job board: keep Werkstudent postings that name a role keyword or are
    remote, and tag them with the board's name. */
module ArbeitNow {
  import opened Jobs
  import opened Strings

  const SOURCE_LABEL: string := "ArbeitNow"
  const ROLE_MARKER: string := "Werkstudent"

  /** One entry of the board's `data` list. `remote` is `None` when the key is
      absent and otherwise the truth value of what it holds. */
  datatype Posting = Posting(title: Field, remote: Option<bool>, companyName: Field, location: Field, url: Field)

  /** `job['title'].lower()` succeeds only on a string. */
  predicate HasTitle(p: Posting) {
    p.title.Present? && p.title.v.Str?
  }

  function TitleOf(p: Posting): string
    requires HasTitle(p)
  {
    p.title.v.s
  }

  /** Some keyword, lower-cased, is a substring of the lower-cased title. */
  predicate KeywordMatch(title: string) {
    exists k :: k in BASE_KEYWORDS && Contains(Lower(title), Lower(k))
  }

  /** The posting is kept: a keyword or the remote flag, and the role marker in the title. */
  predicate Keep(p: Posting)
    requires HasTitle(p) && p.remote.Some?
  {
    (KeywordMatch(TitleOf(p)) || p.remote.value) && Contains(TitleOf(p), ROLE_MARKER)
  }

  /** Reading this posting raises: no string title, no `remote` key, or a kept
      posting lacking one of the keys copied into its record. */
  predicate Raises(p: Posting) {
    || !HasTitle(p)
    || p.remote.None?
    || (Keep(p) && (p.companyName.Missing? || p.location.Missing? || p.url.Missing?))
  }

  predicate NoneRaise(ps: seq<Posting>) {
    forall i :: 0 <= i < |ps| ==> !Raises(ps[i])
  }

  /** The record appended for a kept posting. */
  function ToRecord(p: Posting): JobRecord
    requires HasTitle(p)
  {
    JobRecord(Str(TitleOf(p)), GetOr(p.companyName, Null), GetOr(p.location, Null), GetOr(p.url, Null), Str(SOURCE_LABEL))
  }

  /** The records the loop has appended after reading all of `ps`. */
  function KeptRecords(ps: seq<Posting>): seq<JobRecord>
    requires NoneRaise(ps)
    decreases |ps|
  {
    if ps == [] then []
    else
      var last := ps[|ps| - 1];
      KeptRecords(ps[..|ps| - 1]) + (if Keep(last) then [ToRecord(last)] else [])
  }

  /** The positions of the kept postings, in increasing order. */
  function KeptIndices(ps: seq<Posting>): seq<nat>
    requires NoneRaise(ps)
    decreases |ps|
  {
    if ps == [] then []
    else KeptIndices(ps[..|ps| - 1]) + (if Keep(ps[|ps| - 1]) then [|ps| - 1] else [])
  }

  /** What the fetch returns: nothing on a failed or non-200 exchange or when any
      posting raises, otherwise the kept records. */
  function ArbeitNowJobs(response: Response<Posting>): seq<JobRecord> {
    if Succeeded(response) && NoneRaise(response.items) then KeptRecords(response.items) else []
  }

  /** The keep decision is the one the board's loop makes: the case-sensitive role
      marker occurs in the title, and a lower-cased keyword occurs in the lower-cased
      title or the posting is remote. */
  lemma KeepIff(p: Posting)
    requires HasTitle(p) && p.remote.Some?
    ensures Keep(p) <==>
              && (exists i :: OccursAt(ROLE_MARKER, TitleOf(p), i))
              && (p.remote.value || exists k, i :: k in BASE_KEYWORDS && OccursAt(Lower(k), Lower(TitleOf(p)), i))
  {
    ContainsIff(TitleOf(p), ROLE_MARKER);
    forall k | k in BASE_KEYWORDS
      ensures Contains(Lower(TitleOf(p)), Lower(k)) <==> exists i :: OccursAt(Lower(k), Lower(TitleOf(p)), i)
    {
      ContainsIff(Lower(TitleOf(p)), Lower(k));
    }
  }

  /** The kept positions are exactly the postings the filter keeps, in increasing order. */
  lemma {:induction false} KeptIndicesExact(ps: seq<Posting>)
    requires NoneRaise(ps)
    ensures forall j :: 0 <= j < |KeptIndices(ps)| ==> KeptIndices(ps)[j] < |ps| && Keep(ps[KeptIndices(ps)[j]])
    ensures forall j, j' :: 0 <= j < j' < |KeptIndices(ps)| ==> KeptIndices(ps)[j] < KeptIndices(ps)[j']
    ensures forall i :: 0 <= i < |ps| && Keep(ps[i]) ==> i in KeptIndices(ps)
    decreases |ps|
  {
    if ps != [] {
      var n := |ps| - 1;
      var init := ps[..n];
      KeptIndicesExact(init);
      var ki := KeptIndices(init);
      assert forall j :: 0 <= j < |ki| ==> ki[j] < n && ps[ki[j]] == init[ki[j]];
      assert forall i :: 0 <= i < n ==> ps[i] == init[i];
    }
  }

  /** The j-th kept record is the record made from the j-th kept posting. */
  lemma {:induction false} KeptRecordsAlign(ps: seq<Posting>)
    requires NoneRaise(ps)
    ensures |KeptRecords(ps)| == |KeptIndices(ps)| <= |ps|
    ensures forall j :: 0 <= j < |KeptIndices(ps)| ==>
              KeptIndices(ps)[j] < |ps| && KeptRecords(ps)[j] == ToRecord(ps[KeptIndices(ps)[j]])
    decreases |ps|
  {
    if ps != [] {
      var n := |ps| - 1;
      var init := ps[..n];
      KeptRecordsAlign(init);
      var ki, kr := KeptIndices(init), KeptRecords(init);
      var last := ps[n];
      var indices, records := KeptIndices(ps), KeptRecords(ps);
      assert indices == ki + (if Keep(last) then [n] else []);
      assert records == kr + (if Keep(last) then [ToRecord(last)] else []);
      forall j | 0 <= j < |indices|
        ensures indices[j] < |ps| && records[j] == ToRecord(ps[indices[j]])
      {
        if j < |ki| {
          assert indices[j] == ki[j] && records[j] == kr[j];
          assert ps[ki[j]] == init[ki[j]];
        }
      }
    }
  }

  /** The record of a kept posting that does not raise copies its title, company_name,
      location and url and carries the board's label. */
  lemma RecordCopiesFields(p: Posting)
    requires !Raises(p) && Keep(p)
    ensures ToRecord(p) == JobRecord(Str(TitleOf(p)), p.companyName.v, p.location.v, p.url.v, Str(SOURCE_LABEL))
  {
  }

  /** The j-th kept record copies the title, company, location and url of the j-th
      kept posting and carries the board's label as its source. */
  lemma KeptRecordsCopyFields(ps: seq<Posting>)
    requires NoneRaise(ps)
    ensures |KeptRecords(ps)| == |KeptIndices(ps)| <= |ps|
    ensures forall j :: 0 <= j < |KeptIndices(ps)| ==>
              KeptIndices(ps)[j] < |ps| &&
              var p := ps[KeptIndices(ps)[j]];
              Keep(p) && KeptRecords(ps)[j] == JobRecord(Str(TitleOf(p)), p.companyName.v, p.location.v, p.url.v, Str(SOURCE_LABEL))
  {
    KeptRecordsAlign(ps);
    KeptIndicesExact(ps);
    forall i | 0 <= i < |ps| && Keep(ps[i])
      ensures ToRecord(ps[i]) == JobRecord(Str(TitleOf(ps[i])), ps[i].companyName.v, ps[i].location.v, ps[i].url.v, Str(SOURCE_LABEL))
    {
      RecordCopiesFields(ps[i]);
    }
  }

  /** Every record the board yields is labelled with the board's name. */
  lemma ArbeitNowLabelled(response: Response<Posting>)
    ensures forall j :: 0 <= j < |ArbeitNowJobs(response)| ==> ArbeitNowJobs(response)[j].source == Str(SOURCE_LABEL)
  {
    if Succeeded(response) && NoneRaise(response.items) {
      KeptRecordsCopyFields(response.items);
    }
  }

  /** `fetch_arbeitnow_jobs`, with the HTTP exchange given as `response`. */
  method FetchArbeitNowJobs(response: Response<Posting>) returns (jobs: seq<JobRecord>)
    ensures !Succeeded(response) ==> jobs == []
    ensures jobs == ArbeitNowJobs(response)
  {
    if !Succeeded(response) {
      return [];
    }
    var data := response.items;
    var filtered: seq<JobRecord> := [];
    var i := 0;
    while i < |data|
      invariant 0 <= i <= |data|
      invariant NoneRaise(data[..i])
      invariant filtered == KeptRecords(data[..i])
    {
      var job := data[i];
      if !HasTitle(job) || job.remote.None? {
        assert Raises(data[i]);
        return [];
      }
      if Keep(job) {
        if job.companyName.Missing? || job.location.Missing? || job.url.Missing? {
          assert Raises(data[i]);
          return [];
        }
        filtered := filtered + [ToRecord(job)];
      }
      assert data[..i + 1][..i] == data[..i];
      i := i + 1;
    }
    assert data[..i] == data;
    return filtered;
  }

  /** Keyword matching is plain substring matching: "AWS" is found inside "Paws". */
  lemma KeywordInsideWord()
    ensures KeywordMatch("Paws Werkstudent")
  {
    var title := "Paws Werkstudent";
    assert Lower("AWS") == "aws";
    assert Lower(title)[1..4] == "aws";
    assert OccursAt(Lower("AWS"), Lower(title), 1);
    ContainsIff(Lower(title), Lower("AWS"));
    assert "AWS" in BASE_KEYWORDS;
  }

  /** The role marker is matched case-sensitively: a lower-case "werkstudent" posting
      naming a keyword, even a remote one, is dropped. */
  lemma RoleMarkerCaseSensitive()
    ensures !Keep(Posting(Present(Str("werkstudent Terraform")), Some(true), Missing, Missing, Missing))
  {
    AbsentCharNotContained("werkstudent Terraform", ROLE_MARKER, 'W');
  }
}

=== FILE: jobs.dfy ===
/** The values both job sources produce and the report consumes. */
module Jobs {

  datatype Option<T> = None | Some(value: T)

  /** A JSON value as the agent meets it in a posting's fields: `null` or a string. */
  datatype Val = Null | Str(s: string)

  /** What looking up one key of a JSON object finds. */
  datatype Field = Missing | Present(v: Val)

  /** `obj.get(key, default)`: the value under the key, or `default` when the key is absent. */
  function GetOr(f: Field, default: Val): Val {
    match f
    case Missing => default
    case Present(v) => v
  }

  /** The normalised posting both fetchers emit and the report prints. */
  datatype JobRecord = JobRecord(title: Val, company: Val, location: Val, url: Val, source: Val)

  /** One HTTP exchange: `Failed` when the request raised or its body did not decode
      as JSON, otherwise the status code and the list found under the source's key
      (empty when the key is absent). */
  datatype Response<T> = Failed | Reply(status: int, items: seq<T>)

  const HTTP_OK: int := 200

  predicate Succeeded<T>(response: Response<T>) {
    response.Reply? && response.status == HTTP_OK
  }

  /** The role keywords, in the order the agent lists them. */
  const BASE_KEYWORDS: seq<string> := [
    "DevSecOps",
    "Cloud Security",
    "Platform Engineering",
    "Infrastructure as Code",
    "Application Security",
    "Terraform",
    "AWS"
  ]
}

=== FILE: report.dfy ===
/** The dated text report: its path, the per-source counts and its lines. */
module Report {
  import opened Jobs
  import opened Strings

  const RESULTS_DIR: string := "job_results"
  const FILE_SUFFIX: string := "_Result.txt"
  const HEADER_PREFIX: string := "JOB SEARCH REPORT - "
  const TOTAL_PREFIX: string := "Total Jobs Found: "
  const ROLE_PREFIX: string := "Role:     "
  const COMPANY_PREFIX: string := "Company:  "
  const LOCATION_PREFIX: string := "Location: "
  const SOURCE_PREFIX: string := "Source:   "
  const LINK_PREFIX: string := "Link:     "
  const NO_JOBS_LINE: string := "No new matching jobs found in the last 24h."
  /** 50 `=`, and 50 `-`. */
  const DOUBLE_RULE: string := "=================================================="
  const SINGLE_RULE: string := "--------------------------------------------------"

  /** The moment the clock reports, reduced to the calendar day. */
  datatype Date = Date(year: int, month: int, day: int)

  predicate ValidDate(d: Date) {
    1 <= d.year <= 9999 && 1 <= d.month <= 12 && 1 <= d.day <= 31
  }

  /** strftime("%d%m%y"). */
  function DateStamp(d: Date): string
    requires ValidDate(d)
  {
    PadDigits(d.day, 2) + PadDigits(d.month, 2) + PadDigits(d.year % 100, 2)
  }

  function FileName(d: Date): string
    requires ValidDate(d)
  {
    DateStamp(d) + FILE_SUFFIX
  }

  /** `os.path.join(JOB_RESULTS_DIR, filename)`. */
  function ReportPath(d: Date): string
    requires ValidDate(d)
  {
    RESULTS_DIR + "/" + FileName(d)
  }

  /** strftime('%Y-%m-%d'). */
  function IsoDate(d: Date): string
    requires ValidDate(d)
  {
    PadDigits(d.year, 4) + "-" + PadDigits(d.month, 2) + "-" + PadDigits(d.day, 2)
  }

  /** The file name is `DDMMYY_Result.txt`: six digits reading, two by two, as the day,
      the month and the last two digits of the year, then the suffix. Two days share
      a file exactly when they agree on day, month and the last two digits of the year. */
  lemma FileNameNamesTheDay(d1: Date, d2: Date)
    requires ValidDate(d1) && ValidDate(d2)
    ensures |FileName(d1)| == 6 + |FILE_SUFFIX| && FileName(d1)[6..] == FILE_SUFFIX
    ensures forall i :: 0 <= i < 6 ==> '0' <= FileName(d1)[i] <= '9'
    ensures ParseDecimal(FileName(d1)[0..2]) == d1.day
    ensures ParseDecimal(FileName(d1)[2..4]) == d1.month
    ensures ParseDecimal(FileName(d1)[4..6]) == d1.year % 100
    ensures FileName(d1) == FileName(d2) <==>
              d1.day == d2.day && d1.month == d2.month && d1.year % 100 == d2.year % 100
  {
    var a, b := FileName(d1), FileName(d2);
    assert a[0..2] == PadDigits(d1.day, 2) && a[2..4] == PadDigits(d1.month, 2) && a[4..6] == PadDigits(d1.year % 100, 2);
    assert b[0..2] == PadDigits(d2.day, 2) && b[2..4] == PadDigits(d2.month, 2) && b[4..6] == PadDigits(d2.year % 100, 2);
    PadDigitsRoundTrip(d1.day, 2);
    PadDigitsRoundTrip(d1.month, 2);
    PadDigitsRoundTrip(d1.year % 100, 2);
    PadDigitsAreDigits(d1.day, 2);
    PadDigitsAreDigits(d1.month, 2);
    PadDigitsAreDigits(d1.year % 100, 2);
    forall i | 0 <= i < 6
      ensures '0' <= a[i] <= '9'
    {
      if i < 2 {
        assert a[i] == a[0..2][i];
      } else if i < 4 {
        assert a[i] == a[2..4][i - 2];
      } else {
        assert a[i] == a[4..6][i - 4];
      }
    }
    if a == b {
      PadDigitsRoundTrip(d2.day, 2);
      PadDigitsRoundTrip(d2.month, 2);
      PadDigitsRoundTrip(d2.year % 100, 2);
    }
  }

  /** The `source` labels of the jobs, in job order. */
  function Labels(jobs: seq<JobRecord>): seq<Val> {
    seq(|jobs|, i requires 0 <= i < |jobs| => jobs[i].source)
  }

  /** Each element of a multiset mapped to how often it occurs. */
  function Multiplicities(ms: multiset<Val>): map<Val, nat> {
    map s | s in ms :: ms[s]
  }

  /** `sources.get(src, 0)`. */
  function CountOf(m: map<Val, nat>, src: Val): nat {
    if src in m then m[src] else 0
  }

  /** Each distinct source label mapped to its number of occurrences. */
  function CountMap(jobs: seq<JobRecord>): map<Val, nat> {
    Multiplicities(multiset(Labels(jobs)))
  }

  /** The sum of a count map's values. */
  ghost function SumCounts(m: map<Val, nat>): nat
    decreases |m|
  {
    if m == map[] then 0
    else
      var k :| k in m;
      m[k] + SumCounts(m - {k})
  }

  /** Any key can be taken out first. */
  lemma {:induction false} SumCountsRemove(m: map<Val, nat>, k: Val)
    requires k in m
    ensures SumCounts(m) == m[k] + SumCounts(m - {k})
    decreases |m|
  {
    var k' :| k' in m && SumCounts(m) == m[k'] + SumCounts(m - {k'});
    if k' != k {
      SumCountsRemove(m - {k'}, k);
      SumCountsRemove(m - {k}, k');
      assert m - {k'} - {k} == m - {k} - {k'};
    }
  }

  /** Taking out the only copy of an element drops its key. */
  lemma MultiplicitiesRemoveLast(ms: multiset<Val>, x: Val)
    requires ms[x] == 1
    ensures Multiplicities(ms - multiset{x}) == Multiplicities(ms) - {x}
  {
  }

  /** Taking out one of several copies lowers its count by one and leaves the rest. */
  lemma MultiplicitiesRemoveCopy(ms: multiset<Val>, x: Val)
    requires ms[x] > 1
    ensures x in Multiplicities(ms - multiset{x}) && Multiplicities(ms - multiset{x})[x] == ms[x] - 1
    ensures Multiplicities(ms - multiset{x}) - {x} == Multiplicities(ms) - {x}
  {
  }

  /** The counts of a multiset add up to its size. */
  lemma {:induction false} SumOfMultiplicities(ms: multiset<Val>)
    ensures SumCounts(Multiplicities(ms)) == |ms|
    decreases |ms|
  {
    var m := Multiplicities(ms);
    if ms == multiset{} {
      assert m == map[];
    } else {
      var x :| x in ms;
      var smaller := ms - multiset{x};
      var m' := Multiplicities(smaller);
      SumOfMultiplicities(smaller);
      SumCountsRemove(m, x);
      if ms[x] == 1 {
        MultiplicitiesRemoveLast(ms, x);
      } else {
        MultiplicitiesRemoveCopy(ms, x);
        SumCountsRemove(m', x);
      }
    }
  }

  /** The count map has exactly the distinct sources as keys, and its values add up
      to the number of jobs. */
  lemma CountMapTotals(jobs: seq<JobRecord>)
    ensures forall s :: s in CountMap(jobs) <==> exists i :: 0 <= i < |jobs| && jobs[i].source == s
    ensures forall s :: s in CountMap(jobs) ==> CountMap(jobs)[s] >= 1
    ensures SumCounts(CountMap(jobs)) == |jobs|
  {
    var labels := Labels(jobs);
    forall s
      ensures s in CountMap(jobs) <==> exists i :: 0 <= i < |jobs| && jobs[i].source == s
    {
      if s in labels {
        var i :| 0 <= i < |labels| && labels[i] == s;
        assert jobs[i].source == s;
      }
      if exists i :: 0 <= i < |jobs| && jobs[i].source == s {
        var i :| 0 <= i < |jobs| && jobs[i].source == s;
        assert labels[i] == s;
      }
    }
    SumOfMultiplicities(multiset(labels));
  }

  /** The counts of two job lists, one after the other, add up source by source. */
  lemma CountsAdd(a: seq<JobRecord>, b: seq<JobRecord>)
    ensures forall src :: CountOf(CountMap(a + b), src) == CountOf(CountMap(a), src) + CountOf(CountMap(b), src)
  {
    assert Labels(a + b) == Labels(a) + Labels(b);
  }

  /** Jobs that all carry one label are all counted under it. */
  lemma {:induction false} UniformCount(jobs: seq<JobRecord>, src: Val)
    requires forall i :: 0 <= i < |jobs| ==> jobs[i].source == src
    ensures CountOf(CountMap(jobs), src) == |jobs|
    decreases |jobs|
  {
    if jobs != [] {
      var n := |jobs| - 1;
      UniformCount(jobs[..n], src);
      CountMapStep(jobs, n);
      assert jobs[..n + 1] == jobs;
    }
  }

  /** `m[src] = m.get(src, 0) + 1`. */
  function Bump(m: map<Val, nat>, src: Val): map<Val, nat> {
    m[src := CountOf(m, src) + 1]
  }

  /** One more job bumps its source's count, starting from zero. */
  lemma CountMapStep(jobs: seq<JobRecord>, i: nat)
    requires i < |jobs|
    ensures CountMap(jobs[..i + 1]) == Bump(CountMap(jobs[..i]), jobs[i].source)
  {
    assert Labels(jobs[..i + 1]) == Labels(jobs[..i]) + [jobs[i].source];
  }

  /** The per-source count loop of `save_results`. */
  method CountSources(jobs: seq<JobRecord>) returns (sources: map<Val, nat>)
    ensures sources == CountMap(jobs)
    ensures forall s :: s in sources <==> exists i :: 0 <= i < |jobs| && jobs[i].source == s
    ensures SumCounts(sources) == |jobs|
  {
    sources := map[];
    var i := 0;
    while i < |jobs|
      invariant 0 <= i <= |jobs|
      invariant sources == CountMap(jobs[..i])
    {
      var src := jobs[i].source;
      sources := sources[src := CountOf(sources, src) + 1];
      assert sources == Bump(CountMap(jobs[..i]), src);
      CountMapStep(jobs, i);
      i := i + 1;
    }
    assert jobs[..i] == jobs;
    CountMapTotals(jobs);
  }

  /** An entry of the report. A `Plain` entry is one line of the file. `SourcesLine`
      is the `Sources:` entry, the count map that is printed as indented JSON, which
      spans several lines of the file unless the map is empty. */
  datatype Line = Plain(text: string) | SourcesLine(counts: map<Val, nat>)

  /** Python's `str` of a field: `None` for null. */
  function Render(v: Val): string {
    match v
    case Null => "None"
    case Str(s) => s
  }

  /** The six lines printed for one job. */
  function JobBlock(job: JobRecord): seq<Line> {
    [ Plain(ROLE_PREFIX + Render(job.title)),
      Plain(COMPANY_PREFIX + Render(job.company)),
      Plain(LOCATION_PREFIX + Render(job.location)),
      Plain(SOURCE_PREFIX + Render(job.source)),
      Plain(LINK_PREFIX + Render(job.url)),
      Plain(SINGLE_RULE) ]
  }

  /** The blocks of all jobs, one per job, in job order. */
  function BlocksOf(jobs: seq<JobRecord>): seq<seq<Line>> {
    seq(|jobs|, i requires 0 <= i < |jobs| => JobBlock(jobs[i]))
  }

  /** The blocks one after the other. */
  function Flatten<T>(blocks: seq<seq<T>>): seq<T>
    decreases |blocks|
  {
    if blocks == [] then [] else Flatten(blocks[..|blocks| - 1]) + blocks[|blocks| - 1]
  }

  /** The lines written for all jobs. */
  function JobBlocks(jobs: seq<JobRecord>): seq<Line> {
    Flatten(BlocksOf(jobs))
  }

  /** The date line, the total, the sources, the rule and a blank line. */
  function Header(jobs: seq<JobRecord>, d: Date): seq<Line>
    requires ValidDate(d)
  {
    [ Plain(HEADER_PREFIX + IsoDate(d)),
      Plain(TOTAL_PREFIX + Decimal(|jobs|)),
      SourcesLine(CountMap(jobs)),
      Plain(DOUBLE_RULE),
      Plain("") ]
  }

  /** Everything `save_results` writes, entry by entry. */
  function ReportLines(jobs: seq<JobRecord>, d: Date): seq<Line>
    requires ValidDate(d)
  {
    Header(jobs, d) + (if jobs == [] then [Plain(NO_JOBS_LINE)] else []) + JobBlocks(jobs)
  }

  /** Six-entry blocks, one after the other: block i is entries 6i to 6i+5. */
  lemma {:induction false} FlattenLayout<T>(blocks: seq<seq<T>>)
    requires forall i :: 0 <= i < |blocks| ==> |blocks[i]| == 6
    ensures |Flatten(blocks)| == 6 * |blocks|
    ensures forall i :: 0 <= i < |blocks| ==> Flatten(blocks)[6 * i..6 * i + 6] == blocks[i]
    decreases |blocks|
  {
    if blocks != [] {
      var n := |blocks| - 1;
      var init := blocks[..n];
      FlattenLayout(init);
      var front, last := Flatten(init), blocks[n];
      assert Flatten(blocks) == front + last;
      forall i | 0 <= i < |blocks|
        ensures Flatten(blocks)[6 * i..6 * i + 6] == blocks[i]
      {
        if i < n {
          assert (front + last)[6 * i..6 * i + 6] == front[6 * i..6 * i + 6];
          assert init[i] == blocks[i];
        } else {
          assert (front + last)[6 * n..6 * n + 6] == last;
        }
      }
    }
  }

  /** Job i's block occupies entries 6i to 6i+5 of the blocks. */
  lemma JobBlocksLayout(jobs: seq<JobRecord>)
    ensures |JobBlocks(jobs)| == 6 * |jobs|
    ensures forall i :: 0 <= i < |jobs| ==> JobBlocks(jobs)[6 * i..6 * i + 6] == JobBlock(jobs[i])
  {
    var blocks := BlocksOf(jobs);
    FlattenLayout(blocks);
    forall i | 0 <= i < |jobs|
      ensures JobBlocks(jobs)[6 * i..6 * i + 6] == JobBlock(jobs[i])
    {
      assert blocks[i] == JobBlock(jobs[i]);
    }
  }

  lemma AppendAssoc<T>(a: seq<T>, b: seq<T>, c: seq<T>)
    ensures (a + b) + c == a + (b + c)
  {
  }

  /** A slice past the first part of a concatenation is a slice of the second part. */
  lemma SliceAfter<T>(front: seq<T>, back: seq<T>, lo: nat, len: nat)
    requires lo + len <= |back|
    ensures (front + back)[|front| + lo..|front| + lo + len] == back[lo..lo + len]
  {
  }

  /** One more job adds its block at the end. */
  lemma JobBlocksStep(jobs: seq<JobRecord>, i: nat)
    requires i < |jobs|
    ensures JobBlocks(jobs[..i + 1]) == JobBlocks(jobs[..i]) + JobBlock(jobs[i])
  {
    assert BlocksOf(jobs[..i + 1])[..i] == BlocksOf(jobs[..i]);
  }

  /** The report opens with five header entries: the date, the number of jobs (which
      reads back as that number), the count map, the double rule and a blank entry. */
  lemma ReportHeader(jobs: seq<JobRecord>, d: Date)
    requires ValidDate(d)
    ensures |ReportLines(jobs, d)| == 5 + (if jobs == [] then 1 else 6 * |jobs|)
    ensures ReportLines(jobs, d)[0] == Plain(HEADER_PREFIX + IsoDate(d))
    ensures ReportLines(jobs, d)[1] == Plain(TOTAL_PREFIX + Decimal(|jobs|))
    ensures ParseDecimal(ReportLines(jobs, d)[1].text[|TOTAL_PREFIX|..]) == |jobs|
    ensures ReportLines(jobs, d)[2] == SourcesLine(CountMap(jobs))
    ensures ReportLines(jobs, d)[3] == Plain(DOUBLE_RULE)
    ensures ReportLines(jobs, d)[4] == Plain("")
    ensures jobs == [] ==> ReportLines(jobs, d)[5] == Plain(NO_JOBS_LINE)
  {
    var head := Header(jobs, d);
    var rest := (if jobs == [] then [Plain(NO_JOBS_LINE)] else []) + JobBlocks(jobs);
    var lines := ReportLines(jobs, d);
    assert lines == head + rest;
    JobBlocksLayout(jobs);
    assert forall k :: 0 <= k < 5 ==> lines[k] == head[k];
    assert jobs == [] ==> rest[0] == Plain(NO_JOBS_LINE);
    DecimalRoundTrip(|jobs|);
    assert head[1].text == TOTAL_PREFIX + Decimal(|jobs|);
    assert head[1].text[|TOTAL_PREFIX|..] == Decimal(|jobs|);
  }

  /** After the header, job i's six-entry block starts at entry 5 + 6i, in job order. */
  lemma ReportBlocks(jobs: seq<JobRecord>, d: Date)
    requires ValidDate(d)
    ensures forall i :: 0 <= i < |jobs| ==>
              11 + 6 * i <= |ReportLines(jobs, d)| && ReportLines(jobs, d)[5 + 6 * i..11 + 6 * i] == JobBlock(jobs[i])
  {
    var lines := ReportLines(jobs, d);
    JobBlocksLayout(jobs);
    if jobs != [] {
      assert lines == Header(jobs, d) + JobBlocks(jobs);
      forall i | 0 <= i < |jobs|
        ensures 11 + 6 * i <= |lines| && lines[5 + 6 * i..11 + 6 * i] == JobBlock(jobs[i])
      {
        SliceAfter(Header(jobs, d), JobBlocks(jobs), 6 * i, 6);
      }
    }
  }

  /** A job block opens with its role line, never with the no-jobs line. */
  lemma BlockOpensWithRole(job: JobRecord)
    ensures JobBlock(job)[0] != Plain(NO_JOBS_LINE)
  {
    assert JobBlock(job)[0].text[0] == 'R';
  }

  /** Entry 5 is the no-jobs line exactly when there are no jobs; otherwise it opens the
      first job's block. */
  lemma NoJobsLineIff(jobs: seq<JobRecord>, d: Date)
    requires ValidDate(d)
    ensures |ReportLines(jobs, d)| > 5
    ensures ReportLines(jobs, d)[5] == Plain(NO_JOBS_LINE) <==> jobs == []
  {
    ReportHeader(jobs, d);
    if jobs != [] {
      ReportBlocks(jobs, d);
      var lines := ReportLines(jobs, d);
      assert lines[5] == lines[5..11][0];
      BlockOpensWithRole(jobs[0]);
    }
  }

  /** `save_results`. The clock is read twice, once for the file name and once for
      the header line, and the two readings are given as `fileDay` and `headerDay`:
      the path written and the lines written to it. */
  method SaveResults(jobs: seq<JobRecord>, fileDay: Date, headerDay: Date) returns (path: string, lines: seq<Line>)
    requires ValidDate(fileDay) && ValidDate(headerDay)
    ensures path == ReportPath(fileDay)
    ensures lines == ReportLines(jobs, headerDay)
  {
    path := RESULTS_DIR + "/" + DateStamp(fileDay) + FILE_SUFFIX;
    var sources := CountSources(jobs);
    lines := [ Plain(HEADER_PREFIX + IsoDate(headerDay)),
               Plain(TOTAL_PREFIX + Decimal(|jobs|)),
               SourcesLine(sources),
               Plain(DOUBLE_RULE),
               Plain("") ];
    if jobs == [] {
      lines := lines + [Plain(NO_JOBS_LINE)];
    }
    ghost var head := lines;
    var i := 0;
    while i < |jobs|
      invariant 0 <= i <= |jobs|
      invariant lines == head + JobBlocks(jobs[..i])
    {
      ghost var written := JobBlocks(jobs[..i]);
      var block := JobBlock(jobs[i]);
      lines := lines + block;
      JobBlocksStep(jobs, i);
      AppendAssoc(head, written, block);
      i := i + 1;
    }
    assert jobs[..i] == jobs;
  }
}

=== FILE: serpapi.dfy ===
/** The search aggregator: one query naming every keyword, every result mapped to a
    record labelled with the platform it came through. */
module SerpApi {
  import opened Jobs
  import opened Strings

  const ROLE_QUALIFIER: string := "Werkstudent"
  const KEYWORD_SEPARATOR: string := " OR "
  const DEFAULT_VIA: string := "Google Jobs"

  /** A result's `related_links`: absent or empty (falsy), a list whose first entry is
      an object (carrying `firstLink`, what its `link` key holds), or a truthy value
      whose first entry cannot be read that way. */
  datatype RelatedLinks = NoRelatedLinks | Related(firstLink: Field) | UnusableRelatedLinks

  /** One entry of `jobs_results`; `NotAnObject` is an entry `job.get` fails on. */
  datatype SerpResult =
    | NotAnObject
    | SerpResult(title: Field, companyName: Field, location: Field, via: Field, shareLink: Field, relatedLinks: RelatedLinks)

  /** `if not api_key` skips: no key, or the empty one. */
  predicate HasApiKey(apiKey: Option<string>) {
    apiKey.Some? && apiKey.value != ""
  }

  function Quote(k: string): string {
    "\"" + k + "\""
  }

  function QuotedAll(keywords: seq<string>): seq<string> {
    seq(|keywords|, i requires 0 <= i < |keywords| => Quote(keywords[i]))
  }

  /** `Werkstudent ("k1" OR "k2" OR ...)`. */
  function BuildQuery(keywords: seq<string>): string {
    ROLE_QUALIFIER + " (" + Join(KEYWORD_SEPARATOR, QuotedAll(keywords)) + ")"
  }

  /** `[p0, sep, p1, sep, ..., pn]`: the pieces one expects between the quotes of a query. */
  function Interleave(parts: seq<string>, sep: string): seq<string>
    decreases |parts|
  {
    if |parts| <= 1 then parts else [parts[0], sep] + Interleave(parts[1..], sep)
  }

  /** The parts sit at the even positions, in order, and the separator at every odd one. */
  lemma {:induction false} InterleaveShape(parts: seq<string>, sep: string)
    requires |parts| > 0
    ensures |Interleave(parts, sep)| == 2 * |parts| - 1
    ensures forall i :: 0 <= i < |parts| ==> Interleave(parts, sep)[2 * i] == parts[i]
    ensures forall i :: 0 <= i < |parts| - 1 ==> Interleave(parts, sep)[2 * i + 1] == sep
    decreases |parts|
  {
    if |parts| > 1 {
      var rest := Interleave(parts[1..], sep);
      InterleaveShape(parts[1..], sep);
      var r := Interleave(parts, sep);
      assert r == [parts[0], sep] + rest;
      forall i | 1 <= i < |parts|
        ensures r[2 * i] == parts[i]
      {
        assert r[2 * i] == rest[2 * (i - 1)];
      }
      forall i | 1 <= i < |parts| - 1
        ensures r[2 * i + 1] == sep
      {
        assert r[2 * i + 1] == rest[2 * (i - 1) + 1];
      }
    }
  }

  /** Reading this result raises: it is not an object, or its related links cannot be read. */
  predicate Raises(r: SerpResult) {
    r.NotAnObject? || r.relatedLinks.UnusableRelatedLinks?
  }

  /** `job.get('via', 'Google Jobs')`. */
  function ViaLabel(r: SerpResult): Val
    requires r.SerpResult?
  {
    GetOr(r.via, Str(DEFAULT_VIA))
  }

  /** The share link, overridden by the first related link's `link` when there is one. */
  function ResolveLink(r: SerpResult): Val
    requires r.SerpResult?
  {
    var share := GetOr(r.shareLink, Null);
    match r.relatedLinks
    case Related(first) => GetOr(first, share)
    case _ => share
  }

  function Normalise(r: SerpResult): JobRecord
    requires r.SerpResult?
  {
    JobRecord(GetOr(r.title, Null), GetOr(r.companyName, Null), GetOr(r.location, Null), ResolveLink(r), ViaLabel(r))
  }

  /** The position of the first result that raises, or the length when none does. */
  function FirstRaise(rs: seq<SerpResult>): (k: nat)
    ensures k <= |rs|
    ensures forall j :: 0 <= j < k ==> !Raises(rs[j])
    ensures k < |rs| ==> Raises(rs[k])
    decreases |rs|
  {
    if rs == [] then 0
    else if Raises(rs[0]) then 0
    else 1 + FirstRaise(rs[1..])
  }

  /** The first result that raises is determined by the results before it. */
  lemma {:induction false} FirstRaiseUnique(rs: seq<SerpResult>, k: nat)
    requires k <= |rs|
    requires forall j :: 0 <= j < k ==> !Raises(rs[j])
    requires k < |rs| ==> Raises(rs[k])
    ensures FirstRaise(rs) == k
    decreases k
  {
    if k > 0 {
      FirstRaiseUnique(rs[1..], k - 1);
    }
  }

  /** What the fetch returns: nothing without a key or on a failed or non-200 exchange;
      otherwise one record per result, in result order, up to the first result that raises. */
  function SerpApiJobs(apiKey: Option<string>, response: Response<SerpResult>): (jobs: seq<JobRecord>)
    ensures !HasApiKey(apiKey) || !Succeeded(response) ==> jobs == []
    ensures HasApiKey(apiKey) && Succeeded(response) ==>
              && |jobs| <= |response.items|
              && (forall i :: 0 <= i < |jobs| ==> !Raises(response.items[i]))
              && (|jobs| < |response.items| ==> Raises(response.items[|jobs|]))
              && forall i :: 0 <= i < |jobs| ==> response.items[i].SerpResult? && jobs[i] == Normalise(response.items[i])
  {
    if !HasApiKey(apiKey) || !Succeeded(response) then []
    else
      var items := response.items;
      var k := FirstRaise(items);
      seq(k, i requires 0 <= i < k => Normalise(items[i]))
  }

  /** With a key, a 200 reply and well-formed results, there is exactly one record per
      result, in result order; its source is the result's `via`, or "Google Jobs" when
      absent; its link is the first related link's `link`, falling back to the share
      link when that key is absent or there are no related links. */
  lemma OneRecordPerResult(apiKey: Option<string>, response: Response<SerpResult>)
    requires HasApiKey(apiKey) && Succeeded(response)
    requires forall i :: 0 <= i < |response.items| ==> !Raises(response.items[i])
    ensures |SerpApiJobs(apiKey, response)| == |response.items|
    ensures forall i :: 0 <= i < |response.items| ==>
              var r, job := response.items[i], SerpApiJobs(apiKey, response)[i];
              && job.title == GetOr(r.title, Null)
              && job.company == GetOr(r.companyName, Null)
              && job.location == GetOr(r.location, Null)
              && job.source == (if r.via.Present? then r.via.v else Str(DEFAULT_VIA))
              && job.url == (if r.relatedLinks.Related? && r.relatedLinks.firstLink.Present?
                             then r.relatedLinks.firstLink.v
                             else GetOr(r.shareLink, Null))
  {
    var k := FirstRaise(response.items);
    assert k == |response.items|;
  }

  /** What follows the first quoted keyword in the joined list. */
  function JoinTail(keywords: seq<string>, sep: string): string
    requires |keywords| > 0
  {
    if |keywords| == 1 then "" else sep + Join(sep, QuotedAll(keywords[1..]))
  }

  /** The joined, quoted keywords open with the first keyword in quotes. */
  lemma QuotedJoinFirst(keywords: seq<string>, sep: string)
    requires |keywords| > 0
    ensures Join(sep, QuotedAll(keywords)) == ['"'] + keywords[0] + ['"'] + JoinTail(keywords, sep)
  {
    var quoted := QuotedAll(keywords);
    if |keywords| > 1 {
      assert quoted[1..] == QuotedAll(keywords[1..]);
    }
  }

  lemma Regroup(prefix: string, q: char, k: string, tail: string, suffix: string)
    ensures prefix + ([q] + k + [q] + tail) + suffix == prefix + [q] + (k + [q] + (tail + suffix))
  {
  }

  lemma RegroupPieces<T>(a: T, b: T, c: T, inner: seq<T>, z: T)
    ensures [a, b] + ([c] + inner + [z]) == [a] + ([b, c] + inner) + [z]
  {
  }

  /** Splitting at the quotes around the first keyword peels off the prefix and that keyword. */
  lemma SplitFirstKeyword(prefix: string, keywords: seq<string>, sep: string, suffix: string)
    requires |keywords| > 0
    requires '"' !in prefix && '"' !in keywords[0]
    ensures Split(prefix + Join(sep, QuotedAll(keywords)) + suffix, '"') ==
              [prefix, keywords[0]] + Split(JoinTail(keywords, sep) + suffix, '"')
  {
    var k := keywords[0];
    var rest := JoinTail(keywords, sep) + suffix;
    QuotedJoinFirst(keywords, sep);
    Regroup(prefix, '"', k, JoinTail(keywords, sep), suffix);
    SplitAtFirst(prefix, k + ['"'] + rest, '"');
    SplitAtFirst(k, rest, '"');
  }

  /** Splitting `prefix "k1" sep "k2" ... suffix` at the double quotes gives back the
      prefix, the keywords with the separators between them, and the suffix. */
  lemma {:induction false} SplitQuotedJoin(prefix: string, keywords: seq<string>, sep: string, suffix: string)
    requires |keywords| > 0
    requires '"' !in prefix && '"' !in sep && '"' !in suffix
    requires forall i :: 0 <= i < |keywords| ==> '"' !in keywords[i]
    ensures Split(prefix + Join(sep, QuotedAll(keywords)) + suffix, '"') == [prefix] + Interleave(keywords, sep) + [suffix]
    decreases |keywords|
  {
    SplitFirstKeyword(prefix, keywords, sep, suffix);
    var tail := JoinTail(keywords, sep) + suffix;
    if |keywords| == 1 {
      assert tail == suffix;
      SplitWithoutSeparator(suffix, '"');
    } else {
      var rest := keywords[1..];
      SplitQuotedJoin(sep, rest, sep, suffix);
      assert tail == sep + Join(sep, QuotedAll(rest)) + suffix;
      var inner := Interleave(rest, sep);
      assert Split(tail, '"') == [sep] + inner + [suffix];
      assert Interleave(keywords, sep) == [keywords[0], sep] + inner;
      RegroupPieces(prefix, keywords[0], sep, inner, suffix);
    }
  }

  /** Text that splits into an opening piece, the interleaved keywords and a closing
      piece has the keywords at the odd pieces and two quotes per keyword. */
  lemma PiecesShape(query: string, keywords: seq<string>)
    requires |keywords| > 0
    requires Split(query, '"') == [ROLE_QUALIFIER + " ("] + Interleave(keywords, KEYWORD_SEPARATOR) + [")"]
    ensures |Split(query, '"')| == 2 * |keywords| + 1
    ensures forall i :: 0 <= i < |keywords| ==> Split(query, '"')[1 + 2 * i] == keywords[i]
    ensures forall i :: 0 <= i < |keywords| - 1 ==> Split(query, '"')[2 + 2 * i] == KEYWORD_SEPARATOR
    ensures multiset(query)['"'] == 2 * |keywords|
  {
    var pieces := Split(query, '"');
    var inner := Interleave(keywords, KEYWORD_SEPARATOR);
    InterleaveShape(keywords, KEYWORD_SEPARATOR);
    assert forall j :: 0 <= j < |inner| ==> pieces[1 + j] == inner[j];
    SplitCount(query, '"');
  }

  /** The fixed text around the keywords holds no double quote. */
  lemma FixedTextQuoteFree()
    ensures '"' !in ROLE_QUALIFIER + " (" && '"' !in KEYWORD_SEPARATOR && '"' !in ")"
  {
    assert ROLE_QUALIFIER + " (" == "Werkstudent (";
  }

  /** The query names every keyword, quoted, in keyword order, with one " OR " between
      each two: cut at its double quotes, it falls into the opening `Werkstudent (`,
      then keyword, separator, keyword, ..., keyword, then `)`. */
  lemma QueryListsKeywords(keywords: seq<string>)
    requires |keywords| > 0
    requires forall i :: 0 <= i < |keywords| ==> '"' !in keywords[i]
    ensures Split(BuildQuery(keywords), '"') == [ROLE_QUALIFIER + " ("] + Interleave(keywords, KEYWORD_SEPARATOR) + [")"]
  {
    FixedTextQuoteFree();
    SplitQuotedJoin(ROLE_QUALIFIER + " (", keywords, KEYWORD_SEPARATOR, ")");
  }

  /** So keyword i is the piece 2i+1, every piece between two keywords is " OR ", and
      the query holds exactly two double quotes per keyword. */
  lemma QueryShape(keywords: seq<string>)
    requires |keywords| > 0
    requires forall i :: 0 <= i < |keywords| ==> '"' !in keywords[i]
    ensures |Split(BuildQuery(keywords), '"')| == 2 * |keywords| + 1
    ensures forall i :: 0 <= i < |keywords| ==> Split(BuildQuery(keywords), '"')[1 + 2 * i] == keywords[i]
    ensures forall i :: 0 <= i < |keywords| - 1 ==> Split(BuildQuery(keywords), '"')[2 + 2 * i] == KEYWORD_SEPARATOR
    ensures multiset(BuildQuery(keywords))['"'] == 2 * |keywords|
  {
    QueryListsKeywords(keywords);
    PiecesShape(BuildQuery(keywords), keywords);
  }

  /** The query sent for the configured keywords. */
  lemma BaseQuery()
    ensures BuildQuery(BASE_KEYWORDS) == ROLE_QUALIFIER + " (" + (
      Quote("DevSecOps") + KEYWORD_SEPARATOR + (
      Quote("Cloud Security") + KEYWORD_SEPARATOR + (
      Quote("Platform Engineering") + KEYWORD_SEPARATOR + (
      Quote("Infrastructure as Code") + KEYWORD_SEPARATOR + (
      Quote("Application Security") + KEYWORD_SEPARATOR + (
      Quote("Terraform") + KEYWORD_SEPARATOR + (
      Quote("AWS")))))))) + ")"
  {
    var q := QuotedAll(BASE_KEYWORDS);
    var sep := KEYWORD_SEPARATOR;
    assert Join(sep, q[6..]) == Quote("AWS");
    assert Join(sep, q[5..]) == Quote("Terraform") + sep + Join(sep, q[6..]) by { assert q[5..][1..] == q[6..]; }
    assert Join(sep, q[4..]) == Quote("Application Security") + sep + Join(sep, q[5..]) by { assert q[4..][1..] == q[5..]; }
    assert Join(sep, q[3..]) == Quote("Infrastructure as Code") + sep + Join(sep, q[4..]) by { assert q[3..][1..] == q[4..]; }
    assert Join(sep, q[2..]) == Quote("Platform Engineering") + sep + Join(sep, q[3..]) by { assert q[2..][1..] == q[3..]; }
    assert Join(sep, q[1..]) == Quote("Cloud Security") + sep + Join(sep, q[2..]) by { assert q[1..][1..] == q[2..]; }
    assert Join(sep, q) == Quote("DevSecOps") + sep + Join(sep, q[1..]);
  }

  /** `fetch_serpapi_jobs`, with the HTTP exchange given as `response`; `request` is
      the query sent, or `None` when no request is made. */
  method FetchSerpApiJobs(apiKey: Option<string>, response: Response<SerpResult>)
    returns (request: Option<string>, jobs: seq<JobRecord>)
    ensures !HasApiKey(apiKey) ==> request == None && jobs == []
    ensures HasApiKey(apiKey) ==> request == Some(BuildQuery(BASE_KEYWORDS))
    ensures jobs == SerpApiJobs(apiKey, response)
  {
    if !HasApiKey(apiKey) {
      return None, [];
    }
    var allJobs: seq<JobRecord> := [];
    request := Some(BuildQuery(BASE_KEYWORDS));
    if Succeeded(response) {
      var results := response.items;
      var i := 0;
      while i < |results|
        invariant 0 <= i <= |results|
        invariant forall j :: 0 <= j < i ==> !Raises(results[j])
        invariant allJobs == seq(i, j requires 0 <= j < i => Normalise(results[j]))
      {
        var job := results[i];
        if job.NotAnObject? {
          break;
        }
        var via := GetOr(job.via, Str(DEFAULT_VIA));
        var link := GetOr(job.shareLink, Null);
        if job.relatedLinks.UnusableRelatedLinks? {
          break;
        }
        if job.relatedLinks.Related? {
          link := GetOr(job.relatedLinks.firstLink, link);
        }
        allJobs := allJobs + [JobRecord(GetOr(job.title, Null), GetOr(job.companyName, Null), GetOr(job.location, Null), link, via)];
        i := i + 1;
      }
      FirstRaiseUnique(results, i);
    }
    jobs := allJobs;
  }
}

=== FILE: strings.dfy ===
/** Text operations the agent relies on: lower-casing, the `in` substring test,
    `str.join` and decimal rendering of numbers. `Split`, which the agent never
    calls, cuts text at one character; the proofs use it to read the query back. */
module Strings {

  /** Lower-cases an ASCII capital letter and leaves every other character alone. */
  function LowerChar(c: char): char {
    if 'A' <= c <= 'Z' then (c as int - 'A' as int + 'a' as int) as char else c
  }

  /** `s.lower()`, restricted to ASCII letters. */
  function Lower(s: string): string {
    seq(|s|, i requires 0 <= i < |s| => LowerChar(s[i]))
  }

  /** `needle` occurs in `hay` starting at index `i`. */
  ghost predicate OccursAt(needle: string, hay: string, i: int) {
    0 <= i && i + |needle| <= |hay| && hay[i..i + |needle|] == needle
  }

  /** `needle in hay`: a left-to-right scan. */
  function Contains(hay: string, needle: string): bool
    decreases |hay|
  {
    if |hay| < |needle| then false
    else if hay[..|needle|] == needle then true
    else Contains(hay[1..], needle)
  }

  /** A slice of the text without its first character is the slice one further on. */
  lemma SliceOfTail(hay: string, i: int, n: nat)
    requires 1 <= i && i + n <= |hay|
    ensures hay[1..][i - 1..i - 1 + n] == hay[i..i + n]
  {
  }

  /** The scan finds `needle` exactly when it occurs somewhere in `hay`. */
  lemma {:induction false} ContainsIff(hay: string, needle: string)
    ensures Contains(hay, needle) <==> exists i :: OccursAt(needle, hay, i)
    decreases |hay|
  {
    if |hay| < |needle| {
    } else if hay[..|needle|] == needle {
      assert OccursAt(needle, hay, 0);
    } else {
      ContainsIff(hay[1..], needle);
      if Contains(hay[1..], needle) {
        var i :| OccursAt(needle, hay[1..], i);
        SliceOfTail(hay, i + 1, |needle|);
        assert OccursAt(needle, hay, i + 1);
      } else {
        forall i | 0 <= i
          ensures !OccursAt(needle, hay, i)
        {
          if 0 < i && i + |needle| <= |hay| {
            SliceOfTail(hay, i, |needle|);
            assert !OccursAt(needle, hay[1..], i - 1);
          }
        }
      }
    }
  }

  /** A needle holding a character that `hay` lacks is never found. */
  lemma AbsentCharNotContained(hay: string, needle: string, c: char)
    requires c in needle && c !in hay
    ensures !Contains(hay, needle)
  {
    ContainsIff(hay, needle);
    var j :| 0 <= j < |needle| && needle[j] == c;
    forall i | 0 <= i
      ensures !OccursAt(needle, hay, i)
    {
      if i + |needle| <= |hay| {
        assert hay[i..i + |needle|][j] == hay[i + j];
        assert hay[i + j] in hay;
      }
    }
  }

  /** `sep.join(parts)`. */
  function Join(sep: string, parts: seq<string>): string
    decreases |parts|
  {
    if |parts| == 0 then ""
    else if |parts| == 1 then parts[0]
    else parts[0] + sep + Join(sep, parts[1..])
  }

  /** `s.split(c)`: the pieces between the occurrences of `c`. */
  function Split(s: string, c: char): (parts: seq<string>)
    ensures |parts| >= 1
    decreases |s|
  {
    if s == [] then [""]
    else
      var rest := Split(s[1..], c);
      if s[0] == c then [""] + rest
      else [[s[0]] + rest[0]] + rest[1..]
  }

  /** There is one piece more than there are separators. */
  lemma {:induction false} SplitCount(s: string, c: char)
    ensures |Split(s, c)| == multiset(s)[c] + 1
    decreases |s|
  {
    if s != [] {
      SplitCount(s[1..], c);
      assert s == [s[0]] + s[1..];
    }
  }

  /** Text free of the separator glues onto the first piece of what follows. */
  lemma {:induction false} SplitGluesPrefix(x: string, y: string, c: char)
    requires c !in x
    ensures Split(x + y, c) == [x + Split(y, c)[0]] + Split(y, c)[1..]
    decreases |x|
  {
    if x == [] {
      assert x + y == y;
      var parts := Split(y, c);
      assert x + parts[0] == parts[0];
      assert [parts[0]] + parts[1..] == parts;
    } else {
      assert (x + y)[1..] == x[1..] + y;
      SplitGluesPrefix(x[1..], y, c);
      assert [x[0]] + (x[1..] + Split(y, c)[0]) == x + Split(y, c)[0];
    }
  }

  /** Splitting at the first separator yields the text before it, then the rest's pieces. */
  lemma SplitAtFirst(x: string, y: string, c: char)
    requires c !in x
    ensures Split(x + [c] + y, c) == [x] + Split(y, c)
  {
    SplitGluesPrefix(x, [c] + y, c);
    assert ([c] + y)[1..] == y;
    assert x + [c] + y == x + ([c] + y);
    assert x + "" == x;
  }

  /** Text without the separator is a single piece. */
  lemma SplitWithoutSeparator(x: string, c: char)
    requires c !in x
    ensures Split(x, c) == [x]
  {
    SplitGluesPrefix(x, "", c);
    assert x + "" == x;
  }

  function DigitChar(d: nat): char
    requires d < 10
  {
    ('0' as int + d) as char
  }

  function DigitValue(c: char): nat {
    if '0' <= c <= '9' then c as int - '0' as int else 0
  }

  /** `str(n)`: decimal digits, no leading zeros. */
  function Decimal(n: nat): string
    decreases n
  {
    if n < 10 then [DigitChar(n)] else Decimal(n / 10) + [DigitChar(n % 10)]
  }

  /** Reads a string of decimal digits back as a number. */
  function ParseDecimal(s: string): nat
    decreases |s|
  {
    if s == [] then 0 else 10 * ParseDecimal(s[..|s| - 1]) + DigitValue(s[|s| - 1])
  }

  function Pow10(w: nat): nat {
    if w == 0 then 1 else 10 * Pow10(w - 1)
  }

  /** `n` in exactly `width` digits, zero-padded on the left (`%02d`, strftime's `%d`). */
  function PadDigits(n: nat, width: nat): (s: string)
    ensures |s| == width
  {
    if width == 0 then "" else PadDigits(n / 10, width - 1) + [DigitChar(n % 10)]
  }

  /** Decimal rendering is undone by reading the digits back. */
  lemma {:induction false} DecimalRoundTrip(n: nat)
    ensures |Decimal(n)| > 0
    ensures forall i :: 0 <= i < |Decimal(n)| ==> '0' <= Decimal(n)[i] <= '9'
    ensures ParseDecimal(Decimal(n)) == n
    decreases n
  {
    if n >= 10 {
      DecimalRoundTrip(n / 10);
      var s := Decimal(n);
      assert s[..|s| - 1] == Decimal(n / 10);
    }
  }

  /** Padding yields decimal digits only. */
  lemma {:induction false} PadDigitsAreDigits(n: nat, width: nat)
    ensures forall i :: 0 <= i < width ==> '0' <= PadDigits(n, width)[i] <= '9'
  {
    if width > 0 {
      PadDigitsAreDigits(n / 10, width - 1);
    }
  }

  /** A number below 10^width survives padding and reading back. */
  lemma {:induction false} PadDigitsRoundTrip(n: nat, width: nat)
    requires n < Pow10(width)
    ensures ParseDecimal(PadDigits(n, width)) == n
  {
    if width > 0 {
      assert n / 10 < Pow10(width - 1);
      PadDigitsRoundTrip(n / 10, width - 1);
      var s := PadDigits(n, width);
      assert s[..|s| - 1] == PadDigits(n / 10, width - 1);
    }
  }
}
